=== FILE: README.md ===
# Forestry genetics and breeding rules, in Dafny

This project models the breeding rules at the centre of the Forestry mod's
genetics, cut free from the game engine. World queries, random draws,
biome lookups, tree generators and the offspring-chromosome derivation are
parameters of the operations.

- **Bee species root** (`BeeRoot`, from `BeeHelper`):
  - Item-stack classification into drone, princess, queen and larvae, and the mated-queen test.
  - Turning a bee into an item stack; a queen is always mated first.
  - The species count, cached after its first computation.
  - The template list.
  - The mutation list. It refuses any mutation that names a blacklisted species, and it can be shuffled in place.
  - The beekeeping-mode registry, with name lookup and a first-mode fallback.
  - The active mode, cached and saved in the world's common apiarist tracker.
- **Tree individual** (`Trees`, from `Tree`):
  - The mate snapshot, the pure-bred test and the fire resilience.
  - The fruit-suitability tests.
  - Reproduction: at most one sapling per attempt.
  - Leaf effects on a two-slot storage array.
  - The plant-type search of `canStay`.
  - The tree's tag-compound layout.
- **Sapling tile** (`Saplings`, from `TileSapling`): a tick counter compared with the tree's maturity.
  - Bone meal fast-forwards the counter.
  - A mature sapling runs its generator and registers a birth when a tree was generated.
- **Biome mutation condition** (`MutationConditions`):
  - a 0/1 chance that is 1 exactly when the biome has one of the configured types;
  - a description key chosen by the number of types.
- **Random fruit provider** (`FruitProviders`): a product table whose products each drop on their own draw.

Shared vocabulary:
- `Util`: an option type for Java's nullable references, 32-bit `int` increment, ASCII lower-casing.
- `Nbt`: tag compounds as maps.
- `TreeGenomes`: the tree genome as the tree code reads it.

State lives where the source keeps it:
- `Tree`, `TileSapling`, `FruitProviderRandom` and `BeeHelper` are classes with the fields their methods update.
- The world's saved tracker data is a `TrackerStore` object holding a map from file name to tracker.
- The world's tree-generator counter and birth list are a `GrowthWorld` object.

## Model

| member | source | states |
|---|---|---|
| Util.Inc32 | src/main/java/forestry/arboriculture/tiles/TileSapling.java:47 | `timesTicked++` on a Java `int`: one more, except that the largest `int` wraps to the smallest |
| Util.Lower | src/main/java/forestry/core/genetics/mutations/MutationConditionBiome.java:52 | lower-casing keeps the length, lowers each ASCII letter and leaves every other character alone (narrower than Java's, see Left out) |
| Util.LowerAppend | src/main/java/forestry/core/genetics/mutations/MutationConditionBiome.java:52 | lower-casing a concatenation is concatenating the lower-cased parts |
| Nbt.GetInteger | src/main/java/forestry/arboriculture/tiles/TileSapling.java:34 | the integer stored under the key, and 0 when the key is missing or holds no integer |
| Nbt.SetInteger | src/main/java/forestry/arboriculture/tiles/TileSapling.java:41 | adds the key, reads back the stored value, and leaves every other key as it was |
| Trees.PlantOrdinal | src/main/java/forestry/arboriculture/genetics/Tree.java:161 | each plant type sits at its ordinal in the enum-set iteration order |
| Trees.AllPlantTypesOrdinal | src/main/java/forestry/arboriculture/genetics/Tree.java:161 | the iteration order lists each type at its own ordinal |
| Trees.IsPureBred | src/main/java/forestry/arboriculture/genetics/Tree.java:270-273 | pure-bred at a chromosome when its two allele identifiers agree; a genome holding the same allele twice everywhere, as a template genome does, is pure-bred at every chromosome |
| Trees.Resilience | src/main/java/forestry/arboriculture/genetics/Tree.java:203-206 | at least 10 and a multiple of 10; ten times a base above 1, and 10 for any base up to 1 |
| Trees.ResilienceMonotone | src/main/java/forestry/arboriculture/genetics/Tree.java:203-206 | a higher base never gives a lower resilience |
| Trees.CanBearFruit | src/main/java/forestry/arboriculture/genetics/Tree.java:351-353 | the primary species accepts the provider's fruit family, so a species accepting no family bears no fruit |
| Trees.UnsuitableFruitBearsNothing | src/main/java/forestry/arboriculture/genetics/Tree.java:229-248 | a tree that cannot bear its fruit allows no fruit blocks and spawns none, whatever the provider answers |
| Trees.AllowsFruitBlocks | src/main/java/forestry/arboriculture/genetics/Tree.java:229-237 | true exactly when the provider requires fruit blocks and the primary species accepts the provider's fruit family |
| Trees.TrySpawnFruitBlock | src/main/java/forestry/arboriculture/genetics/Tree.java:240-248 | never spawns on a tree that cannot bear the fruit; on one that can, the provider's answer decides |
| Trees.Saplings | src/main/java/forestry/arboriculture/genetics/Tree.java:324-338 | at most one sapling; none exactly when the draw exceeds fertility times modifier; otherwise the parent's own genome without a mate and the derived offspring with one |
| Trees.ZeroChanceBreedsExactlyOnNonPositiveDraw | src/main/java/forestry/arboriculture/genetics/Tree.java:327-329 | the gate is "at most": with a zero chance a sapling comes exactly from a draw of at most zero, and any positive draw yields nothing |
| Trees.CloneKeepsPureBred | src/main/java/forestry/arboriculture/genetics/Tree.java:330-331 | the sapling of an unmated tree is pure-bred at a chromosome exactly when its parent is |
| Trees.WriteTree | src/main/java/forestry/arboriculture/genetics/Tree.java:91-104 | adds "Genome" holding the genome always and "Mate" holding the mate only when there is one, and keeps every key the superclass writer does not touch |
| Trees.ReadGenome | src/main/java/forestry/arboriculture/genetics/Tree.java:77-81 | a compound without "Genome" restores the Oak genome |
| Trees.ReadMate | src/main/java/forestry/arboriculture/genetics/Tree.java:86-88 | a mate is restored only from a "Mate" key, and a "Mate" entry holding a genome always gives that genome as the mate |
| Trees.NbtRoundTrip | src/main/java/forestry/arboriculture/genetics/Tree.java:77-104 | writing a tree and reading it back always restores its genome; it restores its mate too when the tree has one or the compound held no stale mate |
| Trees.StaleMateSurvivesWrite | src/main/java/forestry/arboriculture/genetics/Tree.java:99-103 | a mate-less tree written over any compound that already holds a mate reads back with that old mate: the writer never removes the key |
| Trees.Tree.constructor | src/main/java/forestry/arboriculture/genetics/Tree.java:68-72 | no mate, and the plant types are the genome's plus the primary species' own plant type |
| Trees.Tree.FromNbt | src/main/java/forestry/arboriculture/genetics/Tree.java:74-89 | genome and mate as read from the compound, with the Oak genome as the fallback; plant types as in the plain constructor |
| Trees.Tree.WriteToNbt | src/main/java/forestry/arboriculture/genetics/Tree.java:91-104 | adds "Genome" always and "Mate" only with a mate, keeping every key the superclass writer does not touch; read back it gives this tree's genome, and its mate unless a stale mate was left in the compound |
| Trees.Tree.Mate | src/main/java/forestry/arboriculture/genetics/Tree.java:108-110 | the mate becomes the other tree's genome, replacing any earlier mate |
| Trees.Tree.GetMate | src/main/java/forestry/arboriculture/genetics/Tree.java:264-268 | the mate, which is also what the tree's own compound reads back as its mate |
| Trees.Tree.DoEffect | src/main/java/forestry/arboriculture/genetics/Tree.java:114-136 | slot 0 always gets the active effect allele; slot 1 gets the inactive effect allele only when both effects are combinable and is untouched otherwise; no other slot changes; the same array comes back |
| Trees.Tree.CanStay | src/main/java/forestry/arboriculture/genetics/Tree.java:155-169 | false without a block below; otherwise true exactly when some plant type of the tree is sustained, with `plantType` set to the first such type in enum order; on failure, `plantType` is the last type tried, or unchanged when the tree has no plant type |
| Trees.Tree.GetSaplings | src/main/java/forestry/arboriculture/genetics/Tree.java:324-347 | new, mate-less trees whose genomes are exactly those `Saplings` gives |
| Saplings.TicksAfterGrow | src/main/java/forestry/arboriculture/tiles/TileSapling.java:88-94 | the counter never decreases; it reaches maturity exactly when it already had or bone meal was applied; it changes only by bone meal on an immature sapling, and then to exactly the maturity |
| Saplings.TicksAdvanceByOne | src/main/java/forestry/arboriculture/tiles/TileSapling.java:45-49 | without overflow, n block ticks advance the counter by exactly n |
| Saplings.MatureAfterMissingTicks | src/main/java/forestry/arboriculture/tiles/TileSapling.java:45-49 | an immature sapling reaches its maturity after exactly the missing number of ticks |
| Saplings.BonemealMakesMature | src/main/java/forestry/arboriculture/tiles/TileSapling.java:89-93 | after a bone-mealed attempt the counter is at least the maturity |
| Saplings.TicksAfterTicks | src/main/java/forestry/arboriculture/tiles/TileSapling.java:45-49 | repeated block ticks keep the counter a 32-bit `int`, and no ticks leave it as it was; its partner `Saplings.TicksAdvanceByOne` states the advance |
| Saplings.ReadTimesTicked | src/main/java/forestry/arboriculture/tiles/TileSapling.java:34 | the counter is the integer under "TT", and 0 when the key is missing or holds no integer |
| Saplings.WriteTimesTicked | src/main/java/forestry/arboriculture/tiles/TileSapling.java:41 | adds "TT", which reads back as the counter, and keeps every other key |
| Saplings.TimesTickedRoundTrip | src/main/java/forestry/arboriculture/tiles/TileSapling.java:31-42 | the counter survives a write and a read under "TT", and a compound that never held it reads as 0 |
| Saplings.TileSapling.constructor | src/main/java/forestry/arboriculture/tiles/TileSapling.java:27 | a new tile has counted no ticks |
| Saplings.TileSapling.ReadFromNbt | src/main/java/forestry/arboriculture/tiles/TileSapling.java:31-35 | the counter becomes the value read under "TT" (0 when absent); nothing else of the tile changes, the superclass reader being outside the model |
| Saplings.TileSapling.WriteToNbt | src/main/java/forestry/arboriculture/tiles/TileSapling.java:38-42 | the saved compound reads back as the counter, and every key the superclass writer does not touch stays |
| Saplings.TileSapling.CanAcceptBoneMeal | src/main/java/forestry/arboriculture/tiles/TileSapling.java:58-78 | false without a tree, true while immature, and when mature the generator's own answer for the mod's tree generator and true for any other |
| Saplings.TileSapling.TryGrow | src/main/java/forestry/arboriculture/tiles/TileSapling.java:80-108 | without a tree nothing changes; an immature sapling only moves its counter; a mature one leaves the counter alone, runs the generator once, and registers a birth exactly when a tree was generated |
| Saplings.TileSapling.OnBlockTick | src/main/java/forestry/arboriculture/tiles/TileSapling.java:45-49 | the counter goes up by one (wrapping as a Java `int`), then growth runs without bone meal |
| MutationConditions.AnyTypeMatches | src/main/java/forestry/core/genetics/mutations/MutationConditionBiome.java:40-44 | the early-return search finds a match exactly when some configured type is a type of the biome |
| MutationConditions.GetChance | src/main/java/forestry/core/genetics/mutations/MutationConditionBiome.java:38-47 | the chance is 0 or 1, and 1 exactly when the biome has one of the configured types |
| MutationConditions.ChanceIgnoresParents | src/main/java/forestry/core/genetics/mutations/MutationConditionBiome.java:38-47 | any two pairs of parent species and genomes give the same chance |
| MutationConditions.EmptyConditionBlocks | src/main/java/forestry/core/genetics/mutations/MutationConditionBiome.java:40-46 | with no configured types the chance is 0 |
| MutationConditions.Names | src/main/java/forestry/core/genetics/mutations/MutationConditionBiome.java:52 | one name per type, in the configured order |
| MutationConditions.LowerAll | src/main/java/forestry/core/genetics/mutations/MutationConditionBiome.java:52 | each name lower-cased, in order |
| MutationConditions.GetDescription | src/main/java/forestry/core/genetics/mutations/MutationConditionBiome.java:50-58 | the "multiple" key exactly when there is more than one type, with the lower-cased list; the "single" key exactly when there is one, with the lower-cased type; at least one type is required |
| MutationConditions.Join | src/main/java/forestry/core/genetics/mutations/MutationConditionBiome.java:52 | the joined list is empty for no names; otherwise it starts with the first name, ends with the last, and with two or more names the first is followed by ", " |
| MutationConditions.TypeListString | src/main/java/forestry/core/genetics/mutations/MutationConditionBiome.java:52 | the list text is the joined type names between "[" and "]" |
| MutationConditions.LowerJoin | src/main/java/forestry/core/genetics/mutations/MutationConditionBiome.java:52 | lower-casing a joined list is joining the lower-cased names |
| MutationConditions.MultipleDescriptionListsLowerNames | src/main/java/forestry/core/genetics/mutations/MutationConditionBiome.java:51-53 | the "multiple" argument lists every configured type lower-cased, in the configured order, in brackets |
| FruitProviders.FruitProviderRandom.constructor | src/main/java/forestry/arboriculture/FruitProviderRandom.java:35-40 | exactly one product with its modifier, and the colour white |
| FruitProviders.FruitProviderRandom.SetColour | src/main/java/forestry/arboriculture/FruitProviderRandom.java:42-45 | the colour becomes the given one, every later colour query answers it, and the same provider comes back |
| FruitProviders.FruitProviderRandom.GetColour | src/main/java/forestry/arboriculture/FruitProviderRandom.java:47-50 | the provider's one colour, whatever the genome and the ripening stage |
| FruitProviders.Drops | src/main/java/forestry/arboriculture/FruitProviderRandom.java:61 | with non-negative factors a non-positive draw always drops; when any factor is zero, a product drops exactly on a non-positive draw |
| FruitProviders.FruitProviderRandom.GetFruits | src/main/java/forestry/arboriculture/FruitProviderRandom.java:53-67 | no product twice, and a product drops exactly when it is in the table and its own draw is at most yield times mode modifier times its modifier |
| FruitProviders.FruitProviderRandom.GetProducts | src/main/java/forestry/arboriculture/FruitProviderRandom.java:70-73 | exactly the table's products, each once |
| FruitProviders.FruitProviderRandom.GetSpecialty | src/main/java/forestry/arboriculture/FruitProviderRandom.java:76-78 | never any specialty |
| FruitProviders.FruitProviderRandom.MarkAsFruitLeaf | src/main/java/forestry/arboriculture/FruitProviderRandom.java:81-83 | always a fruit leaf |
| FruitProviders.DistinctCard | src/main/java/forestry/arboriculture/FruitProviderRandom.java:60-64 | a list without repeats has as many entries as elements |
| FruitProviders.FreshProviderDropsAtMostItsProduct | src/main/java/forestry/arboriculture/FruitProviderRandom.java:37-64 | a new provider drops nothing or its one product, and the product exactly when its draw passes |
| BeeRoot.BeeItem | src/main/java/forestry/apiculture/genetics/BeeHelper.java:115-132 | each bee type is carried by one of the four bee items, never by another item |
| BeeRoot.BeeItemTypeRoundTrip | src/main/java/forestry/apiculture/genetics/BeeHelper.java:115-132 | a stack of a type's item classifies back as that type, whatever its compound, and no two types share an item |
| BeeRoot.GetType | src/main/java/forestry/apiculture/genetics/BeeHelper.java:145-163 | no stack and any other item give NONE; each bee item gives its own type and no other |
| BeeRoot.IsMember | src/main/java/forestry/apiculture/genetics/BeeHelper.java:94-96 | a stack is a bee exactly when it holds one of the four bee items |
| BeeRoot.Ordinal | src/main/java/forestry/apiculture/genetics/BeeHelper.java:100 | every type has an ordinal below five |
| BeeRoot.TypeOfOrdinal | src/main/java/forestry/apiculture/genetics/BeeHelper.java:116 | an ordinal names a type exactly when it is between 0 and 4, and then the type with that ordinal |
| BeeRoot.IsMemberOfType | src/main/java/forestry/apiculture/genetics/BeeHelper.java:99-101 | true only for an ordinal in range, and then exactly when it is the ordinal of the stack's type |
| BeeRoot.IsDrone | src/main/java/forestry/apiculture/genetics/BeeHelper.java:165-168 | a stack is a drone exactly when it holds the drone item |
| BeeRoot.IsMated | src/main/java/forestry/apiculture/genetics/BeeHelper.java:171-178 | only a queen stack can be mated |
| BeeRoot.WriteBee | src/main/java/forestry/apiculture/genetics/BeeHelper.java:137-140 | the bee's compound has a "Mate" key exactly when the bee has a mate |
| BeeRoot.GetMemberStack | src/main/java/forestry/apiculture/genetics/BeeHelper.java:109-142 | a non-bee gives no stack; NONE and out-of-range ordinals fail; otherwise a stack of the requested type carrying the bee's genome and compound; a queen is first mated with herself when unmated; other types leave the bee as it was |
| BeeRoot.QueenStackIsMated | src/main/java/forestry/apiculture/genetics/BeeHelper.java:117-123 | every queen stack handed out passes the mated test |
| BeeRoot.MemberStackTypeRoundTrip | src/main/java/forestry/apiculture/genetics/BeeHelper.java:137-141 | a bee's stack is classified back as a member of the type it was made for |
| BeeRoot.CountSpecies | src/main/java/forestry/apiculture/genetics/BeeHelper.java:81-87 | the number of registry entries that are bee species marked as counted |
| BeeRoot.TemplateAsGenome | src/main/java/forestry/apiculture/genetics/BeeHelper.java:206-209 | every chromosome holds the template's allele as both its active and inactive allele |
| BeeRoot.Admissible | src/main/java/forestry/apiculture/genetics/BeeHelper.java:273-281 | a mutation is admissible exactly when its result species and both parent species all lie outside the blacklist |
| BeeRoot.RegisterInto | src/main/java/forestry/apiculture/genetics/BeeHelper.java:272-284 | one more mutation at the end when none of its three species is blacklisted; otherwise the list is unchanged |
| BeeRoot.RegisterKeepsAdmissible | src/main/java/forestry/apiculture/genetics/BeeHelper.java:272-284 | registering keeps a list free of mutations that name a blacklisted species |
| BeeRoot.Swap | src/main/java/forestry/apiculture/genetics/BeeHelper.java:266 | the two positions trade entries and nothing else moves |
| BeeRoot.SwapPermutes | src/main/java/forestry/apiculture/genetics/BeeHelper.java:266 | a swap keeps the same entries |
| BeeRoot.ShuffleDown | src/main/java/forestry/apiculture/genetics/BeeHelper.java:266 | one Fisher–Yates pass from position `n` down keeps the length and leaves every entry at or above `n` in place |
| BeeRoot.Shuffle | src/main/java/forestry/apiculture/genetics/BeeHelper.java:266 | the shuffled list has the same length and the same entries, each as often as before |
| BeeRoot.ShufflePermutes | src/main/java/forestry/apiculture/genetics/BeeHelper.java:264-269 | the shuffle keeps the length and the same entries, each as often as before |
| BeeRoot.ShuffleKeepsAdmissible | src/main/java/forestry/apiculture/genetics/BeeHelper.java:264-284 | a shuffled list of admissible mutations is still admissible |
| BeeRoot.NameMatches | src/main/java/forestry/apiculture/genetics/BeeHelper.java:337 | a mode answers to its exact name or the ASCII-lowered name; an exact name always matches; a match has the name's length |
| BeeRoot.FindModeFrom | src/main/java/forestry/apiculture/genetics/BeeHelper.java:336-343 | the search from any position always ends on a registered mode |
| BeeRoot.FindMode | src/main/java/forestry/apiculture/genetics/BeeHelper.java:335-344 | always a registered mode, and the first mode when that one answers to the name |
| BeeRoot.FindModeFromIsFirstMatch | src/main/java/forestry/apiculture/genetics/BeeHelper.java:336-343 | the search from a position finds the first matching mode there, and falls back to the first mode |
| BeeRoot.FindModeIsFirstMatch | src/main/java/forestry/apiculture/genetics/BeeHelper.java:335-344 | the lookup is a registered mode: the first whose name equals the name or its lower-cased form, and the first mode when none does |
| BeeRoot.ResolveModeName | src/main/java/forestry/apiculture/genetics/BeeHelper.java:311-314 | the saved mode name when it is present and non-empty, else the configured default |
| BeeRoot.TrackerIn | src/main/java/forestry/apiculture/genetics/BeeHelper.java:350-356 | the stored tracker when the file name is in the world's data, otherwise a new tracker; it is always either new or one of the stored trackers |
| BeeRoot.TrackerFilename | src/main/java/forestry/apiculture/genetics/BeeHelper.java:349 | the name is "ApiaristTracker." followed by the player's id, or by "common" for the world |
| BeeRoot.TrackerFilenameInjective | src/main/java/forestry/apiculture/genetics/BeeHelper.java:349 | different players, and the world's common tracker, get different file names, as long as no player id is "common" |
| BeeRoot.TrackerStore.constructor | src/main/java/forestry/apiculture/genetics/BeeHelper.java:350 | a world starts with no saved trackers |
| BeeRoot.BeeHelper.constructor | src/main/java/forestry/apiculture/genetics/BeeHelper.java:60 | no species count yet (the -1 sentinel), no templates, mutations or modes, and no active mode |
| BeeRoot.BeeHelper.GetSpeciesCount | src/main/java/forestry/apiculture/genetics/BeeHelper.java:77-91 | the first call counts the counted species and caches the count; every later call returns the cached count, whatever the registry holds by then |
| BeeRoot.BeeHelper.RegisterTemplate | src/main/java/forestry/apiculture/genetics/BeeHelper.java:243-249 | appends the template's bee, without a mate, to the template list |
| BeeRoot.BeeHelper.RegisterMutation | src/main/java/forestry/apiculture/genetics/BeeHelper.java:271-284 | the list becomes `RegisterInto` of the old list |
| BeeRoot.BeeHelper.GetMutations | src/main/java/forestry/apiculture/genetics/BeeHelper.java:263-269 | without shuffling, the list in registration order; with it, the list shuffled in place, with the same entries |
| BeeRoot.BeeHelper.RegisterMode | src/main/java/forestry/apiculture/genetics/BeeHelper.java:322-325 | appends the mode to the list the mode query returns |
| BeeRoot.BeeHelper.GetModes | src/main/java/forestry/apiculture/genetics/BeeHelper.java:296-300 | the registered modes themselves, in registration order, so a registration shows in the next query |
| BeeRoot.BeeHelper.ResetMode | src/main/java/forestry/apiculture/genetics/BeeHelper.java:291-294 | no active mode |
| BeeRoot.BeeHelper.GetModeByName | src/main/java/forestry/apiculture/genetics/BeeHelper.java:333-344 | the mode `FindMode` specifies, which is a registered mode; at least one mode is required |
| BeeRoot.BeeHelper.GetBreedingTracker | src/main/java/forestry/apiculture/genetics/BeeHelper.java:346-362 | the tracker saved under the player's file name, or the world's "common" name, created and saved when missing; nothing else in the store changes |
| BeeRoot.BeeHelper.SetMode | src/main/java/forestry/apiculture/genetics/BeeHelper.java:327-331 | the active mode is the one found for the name, and the common tracker saves the name as given |
| BeeRoot.BeeHelper.GetMode | src/main/java/forestry/apiculture/genetics/BeeHelper.java:302-320 | the cached mode when set, with nothing changed; otherwise the mode for the tracker's saved name (or the default when that is missing or empty), which becomes active and is saved in the tracker |

## Left out

- The world, the random source, the biome dictionary, the block below a sapling and tree generators become parameters:
  - random draws are real numbers (`draw`);
  - the shuffle's source is a function `rand` from a bound to a draw;
  - biome membership is `isBiomeOfType`;
  - soil support is `sustains`;
  - a generator's behaviour is `GrowthEnv`.
- The offspring-chromosome derivation is not part of this model. It is the parameter `derive` of `Saplings`. Mutation resolution is left out for the same reason.
- Genome classes and their NBT encodings are not part of this model.
  - A genome is stored whole under its key.
  - A "Genome" entry that holds something else is read as the Oak genome.
  - The Oak genome itself is a stand-in value.
- Trees.Tree.DoEffect: does not model the early `null` return when the genome has no active leaf effect, because a genome here always holds its effect alleles.
- Trees.Tree.DoEffect: the effect's storage validation and world access are folded into the parameter `apply`.
- Trees.Tree.DoEffect: the model requires the storage array to hold the slots it writes (one slot, or two for combinable effects). With a shorter array the source throws `ArrayIndexOutOfBoundsException` (Tree.java:121 and :133); that exception is not modelled.
- Trees.Tree.constructor: the source adds the species' plant type to the very set the genome hands out. The model builds a new set and does not capture that aliasing.
- Trees.Tree.FromNbt: the superclass fields read from the compound (whether the individual was analysed) are not modelled.
- Trees.ReadMate: a "Mate" entry holding no genome reads as no mate; this applies to Trees.Tree.FromNbt too. The source builds a genome from whatever compound it finds there, and that genome codec is not part of this model.
- Trees.WriteTree: the superclass writer (Tree.java:93), which stores whether the individual was analysed, is not modelled; the contract speaks only of "Genome", "Mate" and the keys that writer does not touch.
- Trees.Tree.WriteToNbt: the superclass writer (Tree.java:93) is not modelled, as for Trees.WriteTree.
- Saplings.TileSapling.ReadFromNbt: the superclass reader (TileSapling.java:32), which restores the tile's contained tree and the tile-entity state above it, is not modelled; the method's frame keeps the modelled `tree` field unchanged.
- Saplings.TileSapling.WriteToNbt: the superclass writer (TileSapling.java:39), which stores the tile's contained tree and the tile-entity state above it, is not modelled; the contract speaks only of "TT" and the keys that writer does not touch.
- Trees.Resilience: the base is the given integer. The float product and the `(int)` cast that produce it are left out, and so is `int` overflow of the base times ten.
- Saplings.TileSapling.TryGrow: the maturity is taken as already computed and rounded. The float rounding with the mode's maturation modifier is left out.
- Saplings.TileSapling.CanAcceptBoneMeal: the generator's `preGenerate` side effect is left out.
- Saplings.TileSapling.TryGrow: the tracker's birth registration is modelled as appending to a list.
- FruitProviders.FruitProviderRandom.GetFruits: the order of the fruits follows the map's iteration order, which is not modelled. Only which products drop is stated.
- FruitProviders.FruitProviderRandom.GetFruits: the draw is modelled as a function of the product, so that each product gets its own draw; item-stack copies are values.
- FruitProviders.FruitProviderRandom.GetFruits: the mode's yield modifier is an input, because the tree mode helper is not part of this model.
- MutationConditions.GetDescription: localisation is left out. The description is the key with its formatting argument.
- Util.Lower: lower-casing covers the ASCII letters A to Z only. Java's English lower-casing also lowers letters outside ASCII ("Ä" to "ä"), and turns "İ" into two characters.
- BeeRoot.FindMode: a mode name is matched as given or with only its ASCII letters lowered. For a mode or name with letters outside ASCII it can differ from the source's match; this affects `BeeRoot.FindModeIsFirstMatch` and `BeeRoot.BeeHelper.GetModeByName` too. Biome type names in descriptions are upper-case ASCII constants, so these are not affected.
- BeeRoot.CountSpecies: counts every bee species marked as counted and does not test the blacklist, as the code does.
- BeeRoot.BeeHelper.GetSpeciesCount: the cache is never invalidated, exactly as in the code. A species registered after the first call is not counted.
- BeeRoot.WriteBee: the bee's own compound writer is not part of this model. It is taken to write the genome under "Genome" and the mate under "Mate" exactly when there is one, as the tree writer does.
- BeeRoot.GetMemberStack: the source mates the caller's bee object in place. The model returns the updated bee with the stack.
- BeeRoot.GetMemberStack: the ordinal order of the bee-type enumeration is taken as DRONE, PRINCESS, QUEEN, LARVAE, NONE. The enumeration itself is not part of this model.
- BeeRoot.GetMemberStack: a failing type is one error value. The source throws an array-index exception for an out-of-range ordinal and its own exception for NONE.
- BeeRoot.BeeHelper.RegisterTemplate: the superclass registration by identifier is not part of this model.
- BeeRoot.BeeHelper.GetBreedingTracker: the tracker's user name and world back references are left out.
- BeeRoot.BeeHelper.GetBreedingTracker: a tracker is a value in the store's map, and updating it replaces the entry.
- BeeRoot.BeeHelper: the static fields (the species-count cache, templates, mutations and active mode) are fields of one helper object.
- BeeRoot.BeeHelper.GetModeByName: the model requires at least one registered mode. With no modes the source's fallback `beekeepingModes.get(0)` (BeeHelper.java:343) throws `IndexOutOfBoundsException`, which is not modelled; `BeeRoot.BeeHelper.SetMode` (through `getMode`, BeeHelper.java:329) and `BeeRoot.BeeHelper.GetMode` inherit the same requirement.
- BeeRoot.BeeHelper.GetMode: the configured default mode name is a parameter. Logging is left out.
- Bee and tree member lookups from stacks or compounds (`getMember`, `getBee`, `copy`), tooltips and the engine factories are not part of this model.
- The tree-mode helper is not part of this model.

=== FILE: bee_helper.dfy ===
/** The bee species root: classifies item stacks as bees, turns bee
    individuals into item stacks, and keeps the bee registries (species count
    cache, templates, mutations, beekeeping modes and the active mode). The
    allele registry, the blacklist and the world's saved data are parameters. */
module BeeRoot {
  import opened Util
  import opened Nbt

  // ---------------------------------------------------------------- items

  datatype BeeType = DRONE | PRINCESS | QUEEN | LARVAE | NONE

  /** The four bee items of the mod, and every other item. */
  datatype Item = BeeDroneGE | BeePrincessGE | BeeQueenGE | BeeLarvaeGE | OtherItem(name: string)

  /** The genome of a bee: the species chromosome and the other chromosomes,
      each as (active, inactive) allele identifiers. The bee genome class is
      not part of this model. */
  datatype BeeGenome = BeeGenome(species: (string, string), others: seq<(string, string)>)

  datatype ItemStack = ItemStack(item: Item, tag: Option<Compound<BeeGenome>>)

  /** An individual of any species root: a bee with its genome and the
      snapshot of its mate's genome, or a member of another root. */
  datatype Individual = Bee(genome: BeeGenome, mate: Option<BeeGenome>) | OtherIndividual(root: string)

  /** The item that carries bees of type `t`. */
  function BeeItem(t: BeeType): (item: Item)
    requires t != NONE
    ensures !item.OtherItem?
  {
    match t
    case DRONE => BeeDroneGE
    case PRINCESS => BeePrincessGE
    case QUEEN => BeeQueenGE
    case LARVAE => BeeLarvaeGE
  }

  /** The bee type of a stack: the type whose item the stack holds, and NONE
      for no stack or any other item. */
  function GetType(stack: Option<ItemStack>): (t: BeeType)
    ensures t != NONE ==> stack.Some? && stack.value.item == BeeItem(t)
    ensures t == NONE <==> stack == None || stack.value.item.OtherItem?
  {
    if stack == None then NONE
    else
      match stack.value.item
      case BeeDroneGE => DRONE
      case BeePrincessGE => PRINCESS
      case BeeQueenGE => QUEEN
      case BeeLarvaeGE => LARVAE
      case OtherItem(_) => NONE
  }

  /** Each bee type has its own item, and a stack of that item classifies
      back as that type, whatever its compound. */
  lemma BeeItemTypeRoundTrip(t: BeeType, tag: Option<Compound<BeeGenome>>)
    requires t != NONE
    ensures GetType(Some(ItemStack(BeeItem(t), tag))) == t
    ensures forall u :: u != NONE && BeeItem(u) == BeeItem(t) ==> u == t
  {
  }

  /** A stack is a bee exactly when it holds one of the four bee items. */
  predicate IsMember(stack: Option<ItemStack>)
    ensures IsMember(stack) <==> stack.Some? && !stack.value.item.OtherItem?
  {
    GetType(stack) != NONE
  }

  /** The position of a type in the enumeration. */
  function Ordinal(t: BeeType): (n: nat)
    ensures n < 5
  {
    match t
    case DRONE => 0
    case PRINCESS => 1
    case QUEEN => 2
    case LARVAE => 3
    case NONE => 4
  }

  /** The type at a position of the enumeration, if the position exists. */
  function TypeOfOrdinal(n: int): (t: Option<BeeType>)
    ensures t.Some? <==> 0 <= n < 5
    ensures t.Some? ==> Ordinal(t.value) == n
  {
    if n == 0 then Some(DRONE)
    else if n == 1 then Some(PRINCESS)
    else if n == 2 then Some(QUEEN)
    else if n == 3 then Some(LARVAE)
    else if n == 4 then Some(NONE)
    else None
  }

  /** A stack is a bee of the type with ordinal `t` (`isMember(stack, type)`). */
  predicate IsMemberOfType(stack: Option<ItemStack>, t: int)
    ensures IsMemberOfType(stack, t) ==> 0 <= t < 5
    ensures IsMemberOfType(stack, t) <==> TypeOfOrdinal(t) == Some(GetType(stack))
  {
    Ordinal(GetType(stack)) == t
  }

  /** A stack is a drone exactly when it holds the drone item. */
  predicate IsDrone(stack: Option<ItemStack>)
    ensures IsDrone(stack) <==> stack.Some? && stack.value.item == BeeDroneGE
  {
    GetType(stack) == DRONE
  }

  /** Only a queen whose stack carries a tag with a "Mate" entry is mated. */
  predicate IsMated(stack: Option<ItemStack>)
    ensures IsMated(stack) ==> GetType(stack) == QUEEN
  {
    GetType(stack) == QUEEN && stack.value.tag.Some? && HasKey(stack.value.tag.value, "Mate")
  }

  /** The bee's tag compound: its genome under "Genome" and, when it has one,
      its mate under "Mate" (the same layout the tree individual writes). */
  function WriteBee(genome: BeeGenome, mate: Option<BeeGenome>): (tag: Compound<BeeGenome>)
    ensures HasKey(tag, "Mate") <==> mate.Some?
  {
    var withGenome := map["Genome" := GenomeTag(genome)];
    if mate.Some? then withGenome["Mate" := GenomeTag(mate.value)] else withGenome
  }

  datatype MemberStack =
    | NotAMember                      // the individual is no bee: `null`
    | Stack(stack: ItemStack, bee: Individual)
    | BadType(t: int)                 // no bee item for this ordinal: an exception

  /** The item stack for a bee of the type with ordinal `t`, with the bee as
      it is afterwards: a queen without a mate is first mated with herself.
      The ordinal of NONE and ordinals outside the enumeration fail. */
  function GetMemberStack(individual: Individual, t: int): (r: MemberStack)
    ensures !individual.Bee? ==> r == NotAMember
    ensures individual.Bee? && (TypeOfOrdinal(t) == None || TypeOfOrdinal(t) == Some(NONE)) ==> r == BadType(t)
    ensures individual.Bee? && TypeOfOrdinal(t).Some? && TypeOfOrdinal(t) != Some(NONE) ==>
              r.Stack? && Ordinal(GetType(Some(r.stack))) == t && r.bee.Bee? && r.bee.genome == individual.genome &&
              r.stack.tag == Some(WriteBee(r.bee.genome, r.bee.mate))
    ensures individual.Bee? && t == Ordinal(QUEEN) ==>
              r.bee.mate == (if individual.mate.Some? then individual.mate else Some(individual.genome))
    ensures individual.Bee? && t != Ordinal(QUEEN) && r.Stack? ==> r.bee == individual
  {
    if !individual.Bee? then NotAMember
    else
      match TypeOfOrdinal(t)
      case None => BadType(t)
      case Some(bt) =>
        if bt == NONE then BadType(t)
        else
          var bee := if bt == QUEEN && individual.mate == None
                     then individual.(mate := Some(individual.genome)) else individual;
          Stack(ItemStack(BeeItem(bt), Some(WriteBee(bee.genome, bee.mate))), bee)
  }

  /** Every queen stack the root hands out is mated. */
  lemma QueenStackIsMated(individual: Individual)
    requires individual.Bee?
    ensures GetMemberStack(individual, Ordinal(QUEEN)).Stack?
    ensures IsMated(Some(GetMemberStack(individual, Ordinal(QUEEN)).stack))
  {
  }

  /** A bee's stack is classified back as the type it was made for. */
  lemma MemberStackTypeRoundTrip(individual: Individual, t: int)
    requires individual.Bee? && 0 <= t < Ordinal(NONE)
    ensures IsMember(Some(GetMemberStack(individual, t).stack))
    ensures IsMemberOfType(Some(GetMemberStack(individual, t).stack), t)
  {
  }

  // ---------------------------------------------------------------- species count

  /** What the allele registry holds under an identifier. */
  datatype AlleleKind = BeeSpecies(counted: bool) | OtherAllele

  /** The identifiers of the registered bee species that are counted. */
  function CountedSpecies(registry: map<string, AlleleKind>): set<string> {
    set uid | uid in registry && registry[uid].BeeSpecies? && registry[uid].counted
  }

  /** Counts the counted bee species, one registry entry at a time. */
  method CountSpecies(registry: map<string, AlleleKind>) returns (n: nat)
    ensures n == |CountedSpecies(registry)|
  {
    n := 0;
    var remaining := registry.Keys;
    while remaining != {}
      invariant remaining <= registry.Keys
      invariant n == |CountedSpecies(registry) - remaining|
      decreases remaining
    {
      var uid :| uid in remaining;
      var done := CountedSpecies(registry) - remaining;
      if registry[uid].BeeSpecies? && registry[uid].counted {
        assert CountedSpecies(registry) - (remaining - {uid}) == done + {uid};
        assert uid !in done;
        n := n + 1;
      } else {
        assert CountedSpecies(registry) - (remaining - {uid}) == done;
      }
      remaining := remaining - {uid};
    }
  }

  // ---------------------------------------------------------------- templates

  /** A species template: one allele identifier per chromosome. */
  datatype BeeTemplate = BeeTemplate(species: string, others: seq<string>)

  /** The genome of a template: every chromosome holds the template's allele twice. */
  function TemplateAsGenome(template: BeeTemplate): (g: BeeGenome)
    ensures g.species.0 == g.species.1 == template.species
    ensures |g.others| == |template.others|
    ensures forall i :: 0 <= i < |g.others| ==> g.others[i].0 == g.others[i].1 == template.others[i]
  {
    BeeGenome((template.species, template.species), seq(|template.others|, i requires 0 <= i < |template.others| => (template.others[i], template.others[i])))
  }

  // ---------------------------------------------------------------- mutations

  /** A bee mutation: two parent species, the template of the result, and its base chance. */
  datatype BeeMutation = BeeMutation(species0: string, species1: string, result: BeeTemplate, chance: int)

  /** A mutation may be registered when neither its result species nor
      either parent species is blacklisted. */
  predicate Admissible(m: BeeMutation, blacklist: set<string>)
    ensures Admissible(m, blacklist) <==> {m.result.species, m.species0, m.species1} !! blacklist
  {
    m.result.species !in blacklist && m.species0 !in blacklist && m.species1 !in blacklist
  }

  predicate AllAdmissible(ms: seq<BeeMutation>, blacklist: set<string>) {
    forall i :: 0 <= i < |ms| ==> Admissible(ms[i], blacklist)
  }

  /** The mutation list after a registration attempt: one more entry at the
      end when the mutation is admissible, unchanged otherwise. */
  function RegisterInto(ms: seq<BeeMutation>, m: BeeMutation, blacklist: set<string>): (r: seq<BeeMutation>)
    ensures Admissible(m, blacklist) ==> |r| == |ms| + 1 && r[..|ms|] == ms && r[|ms|] == m
    ensures !Admissible(m, blacklist) ==> r == ms
  {
    if m.result.species in blacklist then ms
    else if m.species0 in blacklist then ms
    else if m.species1 in blacklist then ms
    else ms + [m]
  }

  /** Registration never lets a mutation mentioning a blacklisted species in. */
  lemma RegisterKeepsAdmissible(ms: seq<BeeMutation>, m: BeeMutation, blacklist: set<string>)
    requires AllAdmissible(ms, blacklist)
    ensures AllAdmissible(RegisterInto(ms, m, blacklist), blacklist)
  {
  }

  /** `Collections.swap`. */
  function Swap<T>(s: seq<T>, i: nat, j: nat): (r: seq<T>)
    requires i < |s| && j < |s|
    ensures |r| == |s| && r[i] == s[j] && r[j] == s[i]
    ensures forall k :: 0 <= k < |s| && k != i && k != j ==> r[k] == s[k]
  {
    s[i := s[j]][j := s[i]]
  }

  lemma SwapPermutes<T>(s: seq<T>, i: nat, j: nat)
    requires i < |s| && j < |s|
    ensures multiset(Swap(s, i, j)) == multiset(s)
  {
  }

  /** `Collections.shuffle` on the first `n` entries: from the top down, each
      position `n - 1` is swapped with a position drawn below `n`. The random
      source answers `rand(n)` when asked for a number below `n`. */
  function ShuffleDown<T>(s: seq<T>, n: nat, rand: nat -> nat): (r: seq<T>)
    requires n <= |s|
    ensures |r| == |s|
    ensures forall k :: n <= k < |s| ==> r[k] == s[k]
    ensures n <= 1 ==> r == s
    decreases n
  {
    if n <= 1 then s else ShuffleDown(Swap(s, n - 1, rand(n) % n), n - 1, rand)
  }

  function Shuffle<T>(s: seq<T>, rand: nat -> nat): (r: seq<T>)
    ensures |r| == |s|
    ensures multiset(r) == multiset(s)
  {
    ShufflePermutes(s, |s|, rand);
    ShuffleDown(s, |s|, rand)
  }

  /** Shuffling permutes: the same entries, as often as before. */
  lemma {:induction false} ShufflePermutes<T>(s: seq<T>, n: nat, rand: nat -> nat)
    requires n <= |s|
    ensures multiset(ShuffleDown(s, n, rand)) == multiset(s)
    decreases n
  {
    if n > 1 {
      SwapPermutes(s, n - 1, rand(n) % n);
      ShufflePermutes(Swap(s, n - 1, rand(n) % n), n - 1, rand);
    }
  }

  /** A shuffled list of admissible mutations is still admissible. */
  lemma ShuffleKeepsAdmissible(ms: seq<BeeMutation>, blacklist: set<string>, rand: nat -> nat)
    requires AllAdmissible(ms, blacklist)
    ensures AllAdmissible(Shuffle(ms, rand), blacklist)
  {
    var r := Shuffle(ms, rand);
    forall i | 0 <= i < |r|
      ensures Admissible(r[i], blacklist)
    {
      assert r[i] in multiset(r);
      assert r[i] in multiset(ms);
      var k :| 0 <= k < |ms| && ms[k] == r[i];
    }
  }

  // ---------------------------------------------------------------- modes and trackers

  /** A beekeeping mode, known by its name (its modifiers are not part of this model). */
  datatype BeekeepingMode = BeekeepingMode(name: string)

  /** A mode answers to a name given as is or lower-cased. */
  predicate NameMatches(mode: BeekeepingMode, name: string)
    ensures mode.name == name ==> NameMatches(mode, name)
    ensures NameMatches(mode, name) ==> |mode.name| == |name|
  {
    mode.name == name || mode.name == Lower(name)
  }

  /** The first mode from position `i` on that answers to `name`, else the first mode. */
  function FindModeFrom(modes: seq<BeekeepingMode>, name: string, i: nat): (m: BeekeepingMode)
    requires |modes| > 0 && i <= |modes|
    ensures m in modes
    decreases |modes| - i
  {
    if i == |modes| then modes[0]
    else if NameMatches(modes[i], name) then modes[i]
    else FindModeFrom(modes, name, i + 1)
  }

  /** `getMode(name)` on the registered modes; the list must not be empty. */
  function FindMode(modes: seq<BeekeepingMode>, name: string): (m: BeekeepingMode)
    requires |modes| > 0
    ensures m in modes
    ensures NameMatches(modes[0], name) ==> m == modes[0]
  {
    FindModeFrom(modes, name, 0)
  }

  lemma {:induction false} FindModeFromIsFirstMatch(modes: seq<BeekeepingMode>, name: string, i: nat)
    requires |modes| > 0 && i <= |modes|
    ensures (exists k :: i <= k < |modes| && NameMatches(modes[k], name)) ==>
              exists k :: i <= k < |modes| && FindModeFrom(modes, name, i) == modes[k] &&
                NameMatches(modes[k], name) && forall j :: i <= j < k ==> !NameMatches(modes[j], name)
    ensures (forall k :: i <= k < |modes| ==> !NameMatches(modes[k], name)) ==>
              FindModeFrom(modes, name, i) == modes[0]
    decreases |modes| - i
  {
    if i < |modes| && !NameMatches(modes[i], name) {
      FindModeFromIsFirstMatch(modes, name, i + 1);
    }
  }

  /** Looking a mode up by name gives the first registered mode answering to
      the name (as is or lower-cased), and the first registered mode when
      none does. */
  lemma FindModeIsFirstMatch(modes: seq<BeekeepingMode>, name: string)
    requires |modes| > 0
    ensures FindMode(modes, name) in modes
    ensures (exists k :: 0 <= k < |modes| && NameMatches(modes[k], name)) ==>
              exists k :: 0 <= k < |modes| && FindMode(modes, name) == modes[k] &&
                NameMatches(modes[k], name) && forall j :: 0 <= j < k ==> !NameMatches(modes[j], name)
    ensures (forall k :: 0 <= k < |modes| ==> !NameMatches(modes[k], name)) ==>
              FindMode(modes, name) == modes[0]
  {
    FindModeFromIsFirstMatch(modes, name, 0);
  }

  /** The saved name of the world's mode, or the configured default when
      none (or an empty one) is saved. */
  function ResolveModeName(saved: Option<string>, defaultName: string): (name: string)
    ensures saved.Some? && saved.value != "" ==> name == saved.value
    ensures saved == None || saved.value == "" ==> name == defaultName
  {
    if saved == None || saved.value == "" then defaultName else saved.value
  }

  /** The saved data of an apiarist tracker: the selected mode name and the
      species discovered so far. */
  datatype ApiaristTracker = ApiaristTracker(modeName: Option<string>, discovered: set<string>)

  const NewTracker: ApiaristTracker := ApiaristTracker(None, {})

  /** The name a tracker is saved under: per player, or "common" for the world. */
  function TrackerFilename(player: Option<string>): (f: string)
    ensures |f| >= |"ApiaristTracker."| && f[..|"ApiaristTracker."|] == "ApiaristTracker."
    ensures player == None ==> f[|"ApiaristTracker."|..] == "common"
    ensures player.Some? ==> f[|"ApiaristTracker."|..] == player.value
  {
    "ApiaristTracker." + (if player == None then "common" else player.value)
  }

  const CommonTrackerFile: string := TrackerFilename(None)

  /** Different players (whose identifiers are never "common") and the world
      keep their trackers under different names. */
  lemma TrackerFilenameInjective(p: Option<string>, q: Option<string>)
    requires p != Some("common") && q != Some("common")
    ensures TrackerFilename(p) == TrackerFilename(q) <==> p == q
  {
  }

  /** The tracker a store holds under `filename`, or a new one. */
  function TrackerIn(data: map<string, ApiaristTracker>, filename: string): (t: ApiaristTracker)
    ensures filename in data ==> t == data[filename]
    ensures t == NewTracker || t in data.Values
  {
    if filename in data then data[filename] else NewTracker
  }

  /** The world's saved item data, as far as trackers go. */
  class TrackerStore {
    var itemData: map<string, ApiaristTracker>

    constructor ()
      ensures itemData == map[]
    {
      itemData := map[];
    }
  }

  // ---------------------------------------------------------------- the root

  class BeeHelper {
    /** The cached species count; negative until first computed. */
    var speciesCount: int
    var templates: seq<Individual>
    var mutations: seq<BeeMutation>
    var modes: seq<BeekeepingMode>
    var activeMode: Option<BeekeepingMode>

    constructor ()
      ensures speciesCount == -1 && templates == [] && mutations == [] && modes == [] && activeMode == None
    {
      speciesCount := -1;
      templates := [];
      mutations := [];
      modes := [];
      activeMode := None;
    }

    /** The number of counted bee species, computed on the first call and
        returned from the cache on every later call, whatever the registry
        holds by then. */
    method GetSpeciesCount(registry: map<string, AlleleKind>) returns (n: int)
      modifies this`speciesCount
      ensures old(speciesCount) < 0 ==> n == |CountedSpecies(registry)| && speciesCount == n
      ensures old(speciesCount) >= 0 ==> n == old(speciesCount) && speciesCount == old(speciesCount)
    {
      if speciesCount < 0 {
        speciesCount := CountSpecies(registry);
      }
      return speciesCount;
    }

    /** Adds the template's bee (a fresh bee without a mate) to the template list. */
    method RegisterTemplate(identifier: string, template: BeeTemplate)
      modifies this`templates
      ensures templates == old(templates) + [Bee(TemplateAsGenome(template), None)]
    {
      var bee := Bee(TemplateAsGenome(template), None);
      templates := templates + [bee];
    }

    /** Registers a mutation unless it mentions a blacklisted species. */
    method RegisterMutation(m: BeeMutation, blacklist: set<string>)
      modifies this`mutations
      ensures mutations == RegisterInto(old(mutations), m, blacklist)
    {
      if m.result.species in blacklist {
        return;
      }
      if m.species0 in blacklist {
        return;
      }
      if m.species1 in blacklist {
        return;
      }
      mutations := mutations + [m];
    }

    /** The mutation list, first shuffled in place when asked to. */
    method GetMutations(shuffle: bool, rand: nat -> nat) returns (r: seq<BeeMutation>)
      modifies this`mutations
      ensures !shuffle ==> mutations == old(mutations)
      ensures shuffle ==> mutations == Shuffle(old(mutations), rand)
      ensures multiset(mutations) == multiset(old(mutations))
      ensures r == mutations
    {
      if shuffle {
        var i := |mutations|;
        while i > 1
          invariant 0 <= i <= |mutations| == |old(mutations)|
          invariant ShuffleDown(mutations, i, rand) == Shuffle(old(mutations), rand)
          invariant multiset(mutations) == multiset(old(mutations))
        {
          SwapPermutes(mutations, i - 1, rand(i) % i);
          mutations := Swap(mutations, i - 1, rand(i) % i);
          i := i - 1;
        }
      }
      return mutations;
    }

    method RegisterMode(mode: BeekeepingMode)
      modifies this`modes
      ensures modes == old(modes) + [mode]
      ensures GetModes() == old(GetModes()) + [mode]
    {
      modes := modes + [mode];
    }

    /** Forgets the active mode, so that the next query reads it from the world again. */
    method ResetMode()
      modifies this`activeMode
      ensures activeMode == None
    {
      activeMode := None;
    }

    /** The registered modes, in registration order. */
    function GetModes(): (r: seq<BeekeepingMode>)
      reads this
      ensures r == modes
    {
      modes
    }

    /** The first registered mode answering to `name`, falling back to the first mode. */
    method GetModeByName(name: string) returns (m: BeekeepingMode)
      requires |modes| > 0
      ensures m == FindMode(modes, name)
      ensures m in modes
    {
      var lower := Lower(name);
      var i := 0;
      while i < |modes|
        invariant 0 <= i <= |modes|
        invariant FindModeFrom(modes, name, i) == FindMode(modes, name)
      {
        if modes[i].name == name || modes[i].name == lower {
          return modes[i];
        }
        i := i + 1;
      }
      FindModeIsFirstMatch(modes, name);
      return modes[0];
    }

    /** The tracker saved under the player's (or the world's) name, created
        and saved first when there is none yet. */
    method GetBreedingTracker(store: TrackerStore, player: Option<string>) returns (tracker: ApiaristTracker)
      modifies store
      ensures store.itemData == old(store.itemData)[TrackerFilename(player) := tracker]
      ensures tracker == TrackerIn(old(store.itemData), TrackerFilename(player))
    {
      var filename := TrackerFilename(player);
      if filename !in store.itemData {
        store.itemData := store.itemData[filename := NewTracker];
      }
      tracker := store.itemData[filename];
    }

    /** Makes the mode found for `name` active and saves the name as given in
        the world's common tracker. */
    method SetMode(store: TrackerStore, name: string)
      requires |modes| > 0
      modifies this`activeMode, store
      ensures activeMode == Some(FindMode(modes, name))
      ensures store.itemData == old(store.itemData)[CommonTrackerFile :=
                TrackerIn(old(store.itemData), CommonTrackerFile).(modeName := Some(name))]
    {
      var mode := GetModeByName(name);
      activeMode := Some(mode);
      var tracker := GetBreedingTracker(store, None);
      store.itemData := store.itemData[CommonTrackerFile := tracker.(modeName := Some(name))];
    }

    /** The active mode: the cached one when set; otherwise the mode named in
        the world's common tracker (or the configured default `defaultName`
        when that name is missing or empty), which becomes the active mode. */
    method GetMode(store: TrackerStore, defaultName: string) returns (m: BeekeepingMode)
      requires |modes| > 0
      modifies this`activeMode, store
      ensures old(activeMode).Some? ==>
                m == old(activeMode).value && activeMode == old(activeMode) &&
                store.itemData == old(store.itemData)
      ensures old(activeMode) == None ==>
                var name := ResolveModeName(TrackerIn(old(store.itemData), CommonTrackerFile).modeName, defaultName);
                m == FindMode(modes, name) && activeMode == Some(m) &&
                store.itemData == old(store.itemData)[CommonTrackerFile :=
                  TrackerIn(old(store.itemData), CommonTrackerFile).(modeName := Some(name))]
    {
      if activeMode.Some? {
        return activeMode.value;
      }
      var tracker := GetBreedingTracker(store, None);
      var mode := tracker.modeName;
      var name := if mode == None || mode.value == "" then defaultName else mode.value;
      SetMode(store, name);
      return activeMode.value;
    }
  }
}

=== FILE: fruit_provider_random.dfy ===
/** A fruit provider that drops its products from any leaf block: each
    product is dropped on its own draw against the tree's yield, the mode's
    yield modifier and the product's own modifier. */
module FruitProviders {
  import opened TreeGenomes

  /** An item stack, compared by value. */
  datatype ItemStack = ItemStack(item: string, size: nat, damage: int)

  /** The product may drop when its draw is at most the yield threshold. */
  predicate Drops(draw: real, yieldRate: real, modeYieldMod: real, modifier: real)
    ensures draw <= 0.0 && yieldRate >= 0.0 && modeYieldMod >= 0.0 && modifier >= 0.0 ==> Drops(draw, yieldRate, modeYieldMod, modifier)
    ensures yieldRate == 0.0 || modeYieldMod == 0.0 || modifier == 0.0 ==> (Drops(draw, yieldRate, modeYieldMod, modifier) <==> draw <= 0.0)
  {
    draw <= yieldRate * modeYieldMod * modifier
  }

  predicate Distinct(s: seq<ItemStack>) {
    forall i, j :: 0 <= i < j < |s| ==> s[i] != s[j]
  }

  class FruitProviderRandom {
    const key: string
    const family: FruitFamily
    /** Each product with its drop modifier. */
    const products: map<ItemStack, real>
    var colour: int

    /** A provider with exactly one product and the default colour, white. */
    constructor (key: string, family: FruitFamily, product: ItemStack, modifier: real)
      ensures this.key == key && this.family == family
      ensures products == map[product := modifier]
      ensures colour == 0xffffff
    {
      this.key := key;
      this.family := family;
      products := map[product := modifier];
      colour := 0xffffff;
    }

    /** Sets the colour and hands back the same provider, for chaining. */
    method SetColour(colour: int) returns (r: FruitProviderRandom)
      modifies this`colour
      ensures r == this && this.colour == colour
      ensures forall g, t :: GetColour(g, t) == colour
    {
      this.colour := colour;
      return this;
    }

    /** The leaf colour: the provider's one colour, whatever the genome and
        the ripening stage. */
    function GetColour(genome: TreeGenome, ripeningTime: int): (r: int)
      reads this
      ensures r == colour
    {
      colour
    }

    /** The fruits a leaf drops: every product whose own draw (`draw`) is at
        most the genome's yield times the mode's yield modifier times the
        product's modifier, each at most once, and nothing else. */
    method GetFruits(genome: TreeGenome, modeYieldMod: real, draw: ItemStack -> real)
      returns (fruits: seq<ItemStack>)
      ensures Distinct(fruits)
      ensures forall p :: p in fruits <==>
                p in products && Drops(draw(p), genome.Yield(), modeYieldMod, products[p])
    {
      fruits := [];
      var remaining := products.Keys;
      while remaining != {}
        invariant remaining <= products.Keys
        invariant Distinct(fruits)
        invariant forall p :: p in fruits ==> p !in remaining
        invariant forall p :: p in fruits <==>
                    p in products && p !in remaining && Drops(draw(p), genome.Yield(), modeYieldMod, products[p])
        decreases remaining
      {
        var p :| p in remaining;
        if draw(p) <= genome.Yield() * modeYieldMod * products[p] {
          fruits := fruits + [p];
        }
        remaining := remaining - {p};
      }
    }

    /** The product table's keys, each once. */
    method GetProducts() returns (r: seq<ItemStack>)
      ensures Distinct(r)
      ensures forall p :: p in r <==> p in products
    {
      r := [];
      var remaining := products.Keys;
      while remaining != {}
        invariant remaining <= products.Keys
        invariant Distinct(r)
        invariant forall p :: p in r ==> p !in remaining
        invariant forall p :: p in r <==> p in products && p !in remaining
        decreases remaining
      {
        var p :| p in remaining;
        r := r + [p];
        remaining := remaining - {p};
      }
    }

    /** This provider has no specialty products. */
    function GetSpecialty(): (r: seq<ItemStack>)
      ensures |r| == 0
    {
      []
    }

    /** Every leaf of a tree with this provider is a fruit leaf. */
    function MarkAsFruitLeaf(genome: TreeGenome): (r: bool)
      ensures r
    {
      true
    }
  }

  function Elements(s: seq<ItemStack>): set<ItemStack> {
    set p | p in s
  }

  /** A list without repeats has as many entries as elements. */
  lemma {:induction false} DistinctCard(s: seq<ItemStack>)
    requires Distinct(s)
    ensures |Elements(s)| == |s|
  {
    if s != [] {
      var t := s[1..];
      assert Distinct(t);
      DistinctCard(t);
      assert Elements(s) == {s[0]} + Elements(t);
      assert s[0] !in Elements(t);
    }
  }

  /** A fresh provider drops either nothing or its one product, and the
      product exactly when its draw passes. */
  lemma FreshProviderDropsAtMostItsProduct(products: map<ItemStack, real>, product: ItemStack, modifier: real,
                                           fruits: seq<ItemStack>, genome: TreeGenome, modeYieldMod: real,
                                           draw: ItemStack -> real)
    requires products == map[product := modifier]
    requires Distinct(fruits)
    requires forall p :: p in fruits <==> p in products && Drops(draw(p), genome.Yield(), modeYieldMod, products[p])
    ensures fruits == [] || fruits == [product]
    ensures fruits == [product] <==> Drops(draw(product), genome.Yield(), modeYieldMod, modifier)
  {
    DistinctCard(fruits);
    var e := Elements(fruits);
    assert forall p :: p in e ==> p == product;
    if e != {} {
      assert e == {product};
      assert fruits[0] in e;
    }
  }
}

=== FILE: mutation_condition_biome.dfy ===
/** The biome mutation condition: a mutation may fire only where the biome
    belongs to one of the configured biome types. The biome dictionary's type
    test is a parameter. */
module MutationConditions {
  import opened Util

  /** A biome dictionary type; `name` is what its `toString` gives (the upper-case constant name). */
  datatype BiomeType = BiomeType(name: string)

  /** The condition keeps the configured types in the order they were given. */
  datatype MutationConditionBiome = MutationConditionBiome(validBiomeTypes: seq<BiomeType>)

  /** A localisation key with its one formatting argument. */
  datatype Description = Description(key: string, argument: string)

  const SingleKey: string := "mutation.condition.biome.single"
  const MultipleKey: string := "mutation.condition.biome.multiple"

  /** Walks the types in order and stops at the first one the biome has. */
  function AnyTypeMatches<B>(types: seq<BiomeType>, biome: B, isBiomeOfType: (B, BiomeType) -> bool): (found: bool)
    ensures found <==> exists i :: 0 <= i < |types| && isBiomeOfType(biome, types[i])
  {
    if types == [] then false
    else if isBiomeOfType(biome, types[0]) then true
    else AnyTypeMatches(types[1..], biome, isBiomeOfType)
  }

  /** The chance multiplier is a hard gate: 1 where the biome has one of the
      configured types and 0 elsewhere. The species and genomes of the parents
      play no part. */
  function GetChance<B, S, G>(c: MutationConditionBiome, biome: B, isBiomeOfType: (B, BiomeType) -> bool,
                              species0: S, species1: S, genome0: G, genome1: G): (r: real)
    ensures r == 0.0 || r == 1.0
    ensures r == 1.0 <==> exists i :: 0 <= i < |c.validBiomeTypes| && isBiomeOfType(biome, c.validBiomeTypes[i])
  {
    if AnyTypeMatches(c.validBiomeTypes, biome, isBiomeOfType) then 1.0 else 0.0
  }

  /** Only the biome decides: any other parents give the same chance. */
  lemma ChanceIgnoresParents<B, S, G>(c: MutationConditionBiome, biome: B, isBiomeOfType: (B, BiomeType) -> bool,
                                      s0: S, s1: S, g0: G, g1: G, t0: S, t1: S, h0: G, h1: G)
    ensures GetChance(c, biome, isBiomeOfType, s0, s1, g0, g1) == GetChance(c, biome, isBiomeOfType, t0, t1, h0, h1)
  {
  }

  /** A condition with no types blocks every mutation. */
  lemma EmptyConditionBlocks<B, S, G>(biome: B, isBiomeOfType: (B, BiomeType) -> bool,
                                      s0: S, s1: S, g0: G, g1: G)
    ensures GetChance(MutationConditionBiome([]), biome, isBiomeOfType, s0, s1, g0, g1) == 0.0
  {
  }

  /** The names joined with ", ", as a list prints its elements. */
  function Join(names: seq<string>): (r: string)
    ensures names == [] ==> r == ""
    ensures |names| > 0 ==> names[0] <= r
    ensures |names| > 0 ==> |r| >= |names[|names| - 1]| && r[|r| - |names[|names| - 1]|..] == names[|names| - 1]
    ensures |names| > 1 ==> |r| >= |names[0]| + 2 && r[|names[0]|..|names[0]| + 2] == ", "
  {
    if |names| == 0 then ""
    else if |names| == 1 then names[0]
    else names[0] + ", " + Join(names[1..])
  }

  function Names(types: seq<BiomeType>): (ns: seq<string>)
    ensures |ns| == |types| && forall i :: 0 <= i < |types| ==> ns[i] == types[i].name
  {
    if types == [] then [] else [types[0].name] + Names(types[1..])
  }

  function LowerAll(names: seq<string>): (ls: seq<string>)
    ensures |ls| == |names| && forall i :: 0 <= i < |names| ==> ls[i] == Lower(names[i])
  {
    if names == [] then [] else [Lower(names[0])] + LowerAll(names[1..])
  }

  /** `Arrays.toString` of the type list: "[A, B, C]". */
  function TypeListString(types: seq<BiomeType>): (r: string)
    ensures |r| >= 2 && r[0] == '[' && r[|r| - 1] == ']'
    ensures r[1..|r| - 1] == Join(Names(types))
  {
    "[" + Join(Names(types)) + "]"
  }

  /** The text shown for the condition: with more than one type, the
      "multiple" key and the lower-cased list; otherwise the "single" key and
      the lower-cased first type. There must be at least one type. */
  function GetDescription(c: MutationConditionBiome): (d: Description)
    requires |c.validBiomeTypes| > 0
    ensures |c.validBiomeTypes| > 1 <==> d.key == MultipleKey
    ensures |c.validBiomeTypes| == 1 <==> d.key == SingleKey
    ensures |c.validBiomeTypes| == 1 ==> d.argument == Lower(c.validBiomeTypes[0].name)
    ensures |c.validBiomeTypes| > 1 ==> d.argument == Lower(TypeListString(c.validBiomeTypes))
  {
    if |c.validBiomeTypes| > 1 then
      Description(MultipleKey, Lower(TypeListString(c.validBiomeTypes)))
    else
      Description(SingleKey, Lower(c.validBiomeTypes[0].name))
  }

  /** Lower-casing two names around the separator lower-cases each name;
      the separator has no letters. */
  lemma LowerAroundSeparator(a: string, b: string)
    ensures Lower(a + ", " + b) == Lower(a) + ", " + Lower(b)
  {
    LowerAppend(a + ", ", b);
    LowerAppend(a, ", ");
    assert Lower(", ") == ", ";
  }

  /** Lower-casing a bracketed text lower-cases what is inside the brackets. */
  lemma LowerBracketed(x: string)
    ensures Lower("[" + x + "]") == "[" + Lower(x) + "]"
  {
    LowerAppend("[" + x, "]");
    LowerAppend("[", x);
    assert Lower("[") == "[" && Lower("]") == "]";
  }

  /** Lower-casing a joined list is joining the lower-cased names. */
  lemma {:induction false} LowerJoin(names: seq<string>)
    ensures Lower(Join(names)) == Join(LowerAll(names))
    decreases |names|
  {
    if |names| > 1 {
      var rest := names[1..];
      var lowered := LowerAll(names);
      assert Join(names) == names[0] + ", " + Join(rest);
      assert lowered[0] == Lower(names[0]);
      assert lowered[1..] == LowerAll(rest);
      assert Join(lowered) == lowered[0] + ", " + Join(lowered[1..]);
      LowerJoin(rest);
      LowerAroundSeparator(names[0], Join(rest));
    }
  }

  /** The argument of a "multiple" description lists every configured type,
      each lower-cased, in the configured order. */
  lemma MultipleDescriptionListsLowerNames(c: MutationConditionBiome)
    requires |c.validBiomeTypes| > 1
    ensures GetDescription(c).argument == "[" + Join(LowerAll(Names(c.validBiomeTypes))) + "]"
  {
    var names := Names(c.validBiomeTypes);
    assert GetDescription(c).argument == Lower("[" + Join(names) + "]");
    LowerBracketed(Join(names));
    LowerJoin(names);
  }
}

=== FILE: nbt.dfy ===
/** The part of the host engine's tag compounds (NBT) that the model touches:
    a compound is a map from key to tag, and a genome is stored whole under
    its key (the genome's own encoding is not part of this model). */
module Nbt {

  datatype Tag<G> = IntTag(i: int) | GenomeTag(genome: G)

  type Compound<G> = map<string, Tag<G>>

  /** `NBTTagCompound.hasKey`. */
  predicate HasKey<G>(tag: Compound<G>, key: string) {
    key in tag
  }

  /** `NBTTagCompound.getInteger`: 0 when the key is missing or holds no integer. */
  function GetInteger<G>(tag: Compound<G>, key: string): (r: int)
    ensures key in tag && tag[key].IntTag? ==> r == tag[key].i
    ensures !(key in tag && tag[key].IntTag?) ==> r == 0
  {
    if key in tag && tag[key].IntTag? then tag[key].i else 0
  }

  /** `NBTTagCompound.setInteger`. */
  function SetInteger<G>(tag: Compound<G>, key: string, value: int): (r: Compound<G>)
    ensures r.Keys == tag.Keys + {key}
    ensures GetInteger(r, key) == value
    ensures forall k :: k in tag && k != key ==> r[k] == tag[k]
  {
    tag[key := IntTag(value)]
  }
}

=== FILE: sapling.dfy ===
/** The sapling tile: a tick counter compared with the tree's maturity. Bone
    meal fast-forwards the counter; a mature sapling runs its tree generator and
    registers a birth with the owner's tracker when generation succeeds. */
module Saplings {
  import opened Util
  import opened Nbt
  import opened TreeGenomes

  /** The kind of world generator the tree hands out. */
  datatype GeneratorKind =
    | Arboriculture  // the mod's own tree generator, which can be asked whether it can grow
    | OtherBase      // another of the mod's generators
    | Vanilla        // a generator of the host engine

  /** What one growth attempt learns from outside the tile: the maturity the
      tree needs under the current mode (already rounded), the generator it
      hands out, whether that generator says it can grow, and whether running
      it generates a tree. */
  datatype GrowthEnv = GrowthEnv(maturity: int, generator: GeneratorKind, canGrow: bool, generates: bool)

  /** The counter after one growth attempt on a sapling that holds a tree: an
      immature sapling is fast-forwarded to maturity by bone meal and is left
      as it is otherwise; a mature one keeps its counter. */
  function TicksAfterGrow(ticks: int, bonemealed: bool, maturity: int): (r: int)
    ensures r >= ticks
    ensures r >= maturity <==> ticks >= maturity || bonemealed
    ensures r != ticks ==> bonemealed && ticks < maturity && r == maturity
  {
    if ticks < maturity && bonemealed then maturity else ticks
  }

  /** The counter after `n` block ticks on a sapling whose tree's maturity
      stays at `maturity`: each tick adds one (with Java `int` wrap-around) and
      then tries to grow without bone meal. */
  function TicksAfterTicks(ticks: int, n: nat, maturity: int): (r: int)
    requires IsInt32(ticks)
    ensures IsInt32(r)
    ensures n == 0 ==> r == ticks
    decreases n
  {
    if n == 0 then ticks
    else TicksAfterTicks(TicksAfterGrow(Inc32(ticks), false, maturity), n - 1, maturity)
  }

  /** Without overflow, `n` ticks advance the counter by exactly `n`. */
  lemma {:induction false} TicksAdvanceByOne(ticks: int, n: nat, maturity: int)
    requires IsInt32(ticks) && ticks + n <= INT_MAX
    ensures TicksAfterTicks(ticks, n, maturity) == ticks + n
    decreases n
  {
    if n > 0 {
      assert TicksAfterGrow(Inc32(ticks), false, maturity) == ticks + 1;
      TicksAdvanceByOne(ticks + 1, n - 1, maturity);
    }
  }

  /** An immature sapling reaches its maturity after exactly the missing number of ticks. */
  lemma MatureAfterMissingTicks(ticks: int, maturity: int)
    requires IsInt32(ticks) && IsInt32(maturity) && ticks <= maturity
    ensures TicksAfterTicks(ticks, maturity - ticks, maturity) == maturity
  {
    TicksAdvanceByOne(ticks, maturity - ticks, maturity);
  }

  /** Once bone meal has been applied, the next attempt runs the generator. */
  lemma BonemealMakesMature(ticks: int, maturity: int)
    ensures TicksAfterGrow(ticks, true, maturity) >= maturity
  {
  }

  /** `readFromNBT`: the counter under "TT", 0 when absent. */
  function ReadTimesTicked(tag: Compound<TreeGenome>): (r: int)
    ensures "TT" in tag && tag["TT"].IntTag? ==> r == tag["TT"].i
    ensures !("TT" in tag && tag["TT"].IntTag?) ==> r == 0
  {
    GetInteger(tag, "TT")
  }

  /** `writeToNBT`: the counter under "TT". */
  function WriteTimesTicked(tag: Compound<TreeGenome>, ticks: int): (r: Compound<TreeGenome>)
    ensures r.Keys == tag.Keys + {"TT"}
    ensures ReadTimesTicked(r) == ticks
    ensures forall k :: k in tag && k != "TT" ==> r[k] == tag[k]
  {
    SetInteger(tag, "TT", ticks)
  }

  /** The counter survives a write and a read; a tag that never held it reads as 0. */
  lemma TimesTickedRoundTrip(tag: Compound<TreeGenome>, ticks: int)
    ensures ReadTimesTicked(WriteTimesTicked(tag, ticks)) == ticks
    ensures "TT" !in tag ==> ReadTimesTicked(tag) == 0
  {
  }

  /** The parts of the world a growing sapling touches: how often a tree
      generator has run, and the births registered with the owner's tracker. */
  class GrowthWorld {
    var generatorRuns: nat
    var births: seq<TreeGenome>

    constructor ()
      ensures generatorRuns == 0 && births == []
    {
      generatorRuns := 0;
      births := [];
    }
  }

  class TileSapling {
    var timesTicked: int
    /** The tree the tile holds, if any. */
    var tree: Option<TreeGenome>

    ghost predicate Valid()
      reads this
    {
      IsInt32(timesTicked)
    }

    constructor (tree: Option<TreeGenome>)
      ensures Valid() && timesTicked == 0 && this.tree == tree
    {
      timesTicked := 0;
      this.tree := tree;
    }

    method ReadFromNbt(tag: Compound<TreeGenome>)
      requires IsInt32(ReadTimesTicked(tag))
      modifies this`timesTicked
      ensures Valid() && timesTicked == ReadTimesTicked(tag)
    {
      timesTicked := GetInteger(tag, "TT");
    }

    /** Saves the counter; reading the tag back gives the counter, and no
        other entry changes. */
    function WriteToNbt(tag: Compound<TreeGenome>): (r: Compound<TreeGenome>)
      reads this
      ensures ReadTimesTicked(r) == timesTicked
      ensures forall k :: k in tag && k != "TT" ==> k in r && r[k] == tag[k]
    {
      WriteTimesTicked(tag, timesTicked)
    }

    /** Bone meal is accepted by an immature sapling, and by a mature one
        whose generator can grow here (any generator but the mod's own tree
        generator is taken to grow). */
    function CanAcceptBoneMeal(env: GrowthEnv): (r: bool)
      reads this
      ensures tree == None ==> !r
      ensures tree != None && timesTicked < env.maturity ==> r
      ensures tree != None && timesTicked >= env.maturity ==>
                (r <==> env.generator != Arboriculture || env.canGrow)
    {
      if tree == None then false
      else if timesTicked < env.maturity then true
      else if env.generator == Arboriculture then env.canGrow
      else true
    }

    /** One growth attempt. Without a tree nothing happens. An immature
        sapling only moves its counter (to maturity, when bone-mealed). A
        mature one runs its generator once, leaves the counter alone, and
        registers a birth exactly when a tree was generated. */
    method TryGrow(bonemealed: bool, env: GrowthEnv, world: GrowthWorld)
      requires Valid() && IsInt32(env.maturity)
      modifies this`timesTicked, world
      ensures Valid()
      ensures tree == None ==> timesTicked == old(timesTicked) && unchanged(world)
      ensures tree != None ==> timesTicked == TicksAfterGrow(old(timesTicked), bonemealed, env.maturity)
      ensures tree != None && old(timesTicked) < env.maturity ==> unchanged(world)
      ensures tree != None && old(timesTicked) >= env.maturity ==>
                world.generatorRuns == old(world.generatorRuns) + 1 &&
                world.births == old(world.births) + (if env.generates then [tree.value] else [])
    {
      if tree == None {
        return;
      }
      var maturity := env.maturity;
      if timesTicked < maturity {
        if bonemealed {
          timesTicked := maturity;
        }
        return;
      }
      world.generatorRuns := world.generatorRuns + 1;
      var generated := env.generates;
      if generated {
        world.births := world.births + [tree.value];
      }
    }

    /** A block tick: the counter goes up by one (wrapping as a Java `int`),
        then the sapling tries to grow without bone meal. */
    method OnBlockTick(env: GrowthEnv, world: GrowthWorld)
      requires Valid() && IsInt32(env.maturity)
      modifies this`timesTicked, world
      ensures Valid()
      ensures timesTicked == Inc32(old(timesTicked))
      ensures tree != None && Inc32(old(timesTicked)) >= env.maturity ==>
                world.generatorRuns == old(world.generatorRuns) + 1 &&
                world.births == old(world.births) + (if env.generates then [tree.value] else [])
      ensures tree == None || Inc32(old(timesTicked)) < env.maturity ==> unchanged(world)
    {
      timesTicked := Inc32(timesTicked);
      TryGrow(false, env, world);
    }
  }
}

=== FILE: tree.dfy ===
/** A tree individual: its genome, the snapshot of its mate's genome, the
    plant types it can be planted as, and the breeding, fruit and effect rules
    that read them. World queries, random draws and the offspring derivation
    are parameters. */
module Trees {
  import opened Util
  import opened Nbt
  import opened TreeGenomes

  /** Position of a plant type in its enum declaration. */
  function PlantOrdinal(t: PlantType): (n: nat)
    ensures n < |AllPlantTypes| && AllPlantTypes[n] == t
  {
    match t
    case Plains => 0
    case Desert => 1
    case Beach => 2
    case Cave => 3
    case Water => 4
    case Nether => 5
    case Crop => 6
  }

  lemma AllPlantTypesOrdinal(i: nat)
    requires i < |AllPlantTypes|
    ensures PlantOrdinal(AllPlantTypes[i]) == i
  {
  }

  /** A genome is pure-bred at `c` when its two alleles there are the same allele. */
  predicate IsPureBred(g: TreeGenome, c: TreeChromosome)
    ensures g.SameAlleles() ==> IsPureBred(g, c)
  {
    g.Uids(c).0 == g.Uids(c).1
  }

  /** The fire resilience: the base rate, raised to at least 1, times ten. */
  function Resilience(base: int): (r: int)
    ensures r >= 10 && r % 10 == 0
    ensures base > 1 ==> r / 10 == base
    ensures base <= 1 ==> r == 10
  {
    (if base > 1 then base else 1) * 10
  }

  /** A higher base rate never lowers the resilience. */
  lemma ResilienceMonotone(a: int, b: int)
    requires a <= b
    ensures Resilience(a) <= Resilience(b)
  {
  }

  /** The primary species accepts the family of the genome's fruit provider. */
  predicate CanBearFruit(g: TreeGenome)
    ensures CanBearFruit(g) ==> g.Primary().suitableFruit != {}
  {
    g.Provider().family in g.Primary().suitableFruit
  }

  /** Fruit blocks are allowed only for a provider that needs them, and then
      exactly when the tree can bear its fruit. */
  function AllowsFruitBlocks(g: TreeGenome): (r: bool)
    ensures r <==> g.Provider().requiresFruitBlocks && CanBearFruit(g)
  {
    if !g.Provider().requiresFruitBlocks then false
    else g.Provider().family in g.Primary().suitableFruit
  }

  /** A fruit block spawns only on a tree that can bear the fruit; then the
      provider (whose answer is `providerSpawns`) decides. */
  function TrySpawnFruitBlock(g: TreeGenome, providerSpawns: bool): (r: bool)
    ensures r ==> CanBearFruit(g)
    ensures CanBearFruit(g) ==> r == providerSpawns
  {
    if g.Provider().family !in g.Primary().suitableFruit then false
    else providerSpawns
  }

  /** An unsuitable fruit family rules out fruit blocks and their spawning,
      whatever the provider would answer. */
  lemma UnsuitableFruitBearsNothing(g: TreeGenome, providerSpawns: bool)
    requires !CanBearFruit(g)
    ensures !AllowsFruitBlocks(g) && !TrySpawnFruitBlock(g, providerSpawns)
  {
  }

  /** The genomes of the saplings one reproduction attempt yields: none when
      the draw exceeds fertility times modifier, otherwise one, a copy of the
      parent without a mate and the derived offspring with one. */
  function Saplings(g: TreeGenome, mate: Option<TreeGenome>, draw: real, modifier: real,
                    derive: (TreeGenome, TreeGenome) -> TreeGenome): (r: seq<TreeGenome>)
    ensures |r| <= 1
    ensures r == [] <==> draw > g.Fertility() * modifier
    ensures r != [] && mate == None ==> r[0] == g
    ensures r != [] && mate != None ==> r[0] == derive(g, mate.value)
  {
    if draw <= g.Fertility() * modifier then
      (match mate
       case None => [g]
       case Some(m) => [derive(g, m)])
    else []
  }

  /** The gate is "at most", not "less than": with no fertility at all, a
      sapling comes exactly from a draw of at most zero. */
  lemma ZeroChanceBreedsExactlyOnNonPositiveDraw(g: TreeGenome, mate: Option<TreeGenome>, draw: real,
                                                 derive: (TreeGenome, TreeGenome) -> TreeGenome)
    ensures |Saplings(g, mate, draw, 0.0, derive)| == 1 <==> draw <= 0.0
    ensures draw > 0.0 ==> Saplings(g, mate, draw, 0.0, derive) == []
  {
  }

  /** A sapling of an unmated tree is pure-bred exactly where its parent is. */
  lemma CloneKeepsPureBred(g: TreeGenome, draw: real, modifier: real,
                             derive: (TreeGenome, TreeGenome) -> TreeGenome, c: TreeChromosome)
    requires draw <= g.Fertility() * modifier
    ensures |Saplings(g, None, draw, modifier, derive)| == 1
    ensures IsPureBred(Saplings(g, None, draw, modifier, derive)[0], c) <==> IsPureBred(g, c)
  {
  }

  /** `writeToNBT`: the genome under "Genome" and, when there is one, the mate under "Mate". */
  function WriteTree(tag: Compound<TreeGenome>, g: TreeGenome, mate: Option<TreeGenome>): (r: Compound<TreeGenome>)
    ensures r.Keys == tag.Keys + {"Genome"} + (if mate.Some? then {"Mate"} else {})
    ensures r["Genome"] == GenomeTag(g)
    ensures mate.Some? ==> r["Mate"] == GenomeTag(mate.value)
    ensures forall k :: k in tag && k != "Genome" && k != "Mate" ==> r[k] == tag[k]
  {
    var withGenome := tag["Genome" := GenomeTag(g)];
    if mate.Some? then withGenome["Mate" := GenomeTag(mate.value)] else withGenome
  }

  /** The genome the NBT constructor restores: the stored one, else the Oak genome. */
  function ReadGenome(tag: Compound<TreeGenome>): (g: TreeGenome)
    ensures !HasKey(tag, "Genome") ==> g == OakGenome
  {
    if HasKey(tag, "Genome") && tag["Genome"].GenomeTag? then tag["Genome"].genome else OakGenome
  }

  /** The mate the NBT constructor restores: present only under a "Mate" key. */
  function ReadMate(tag: Compound<TreeGenome>): (m: Option<TreeGenome>)
    ensures m.Some? ==> HasKey(tag, "Mate")
    ensures HasKey(tag, "Mate") && tag["Mate"].GenomeTag? ==> m == Some(tag["Mate"].genome)
  {
    if HasKey(tag, "Mate") && tag["Mate"].GenomeTag? then Some(tag["Mate"].genome) else None
  }

  /** Writing a tree and reading it back restores its genome, and its mate
      too unless the compound already held a stale mate. */
  lemma NbtRoundTrip(tag: Compound<TreeGenome>, g: TreeGenome, mate: Option<TreeGenome>)
    ensures ReadGenome(WriteTree(tag, g, mate)) == g
    ensures mate.Some? || !HasKey(tag, "Mate") ==> ReadMate(WriteTree(tag, g, mate)) == mate
  {
  }

  /** A mate-less tree written over a compound that already holds a mate
      reads back with that old mate: the writer never removes the key. */
  lemma StaleMateSurvivesWrite(tag: Compound<TreeGenome>, g: TreeGenome, old_mate: TreeGenome)
    requires HasKey(tag, "Mate") && tag["Mate"] == GenomeTag(old_mate)
    ensures ReadMate(WriteTree(tag, g, None)) == Some(old_mate)
  {
  }

  class Tree {
    const genome: TreeGenome
    var mate: Option<TreeGenome>
    const plantTypes: set<PlantType>
    /** The plant type last tried by `CanStay`; reported back to the block below. */
    var plantType: Option<PlantType>

    /** A fresh individual: no mate, and planted as the genome's plant types
        together with its primary species' own plant type. */
    constructor (genome: TreeGenome)
      ensures this.genome == genome && mate == None && plantType == None
      ensures plantTypes == genome.PlantTypes() + {genome.Primary().plantType}
      ensures plantTypes != {}
    {
      this.genome := genome;
      this.mate := None;
      this.plantTypes := genome.PlantTypes() + {genome.Primary().plantType};
      this.plantType := None;
    }

    /** An individual restored from its tag compound. */
    constructor FromNbt(tag: Compound<TreeGenome>)
      ensures genome == ReadGenome(tag) && mate == ReadMate(tag) && plantType == None
      ensures plantTypes == genome.PlantTypes() + {genome.Primary().plantType}
      ensures plantTypes != {}
    {
      var g := ReadGenome(tag);
      this.genome := g;
      this.plantTypes := g.PlantTypes() + {g.Primary().plantType};
      this.plantType := None;
      this.mate := ReadMate(tag);
    }

    /** Writes the tree into `tag`; read back from a compound without a
        stale mate, it gives this tree's genome and mate. */
    function WriteToNbt(tag: Compound<TreeGenome>): (r: Compound<TreeGenome>)
      reads this
      ensures r.Keys == tag.Keys + {"Genome"} + (if mate.Some? then {"Mate"} else {})
      ensures ReadGenome(r) == genome
      ensures mate.Some? || !HasKey(tag, "Mate") ==> ReadMate(r) == mate
    {
      WriteTree(tag, genome, mate)
    }

    /** Mating stores a snapshot of the other tree's genome, replacing any earlier mate. */
    method Mate(other: Tree)
      modifies this`mate
      ensures mate == Some(other.genome)
    {
      mate := Some(other.genome);
    }

    /** The mate, as the tree's own compound stores it. */
    function GetMate(): (m: Option<TreeGenome>)
      reads this
      ensures m == ReadMate(WriteToNbt(map[]))
    {
      mate
    }

    /** Runs the leaf effects on their two storage slots: the first always with
        the active effect, the second with the inactive effect only when both
        effects are combinable. `apply` is the effect allele's own action on its
        storage. Returns the same storage array. */
    method DoEffect<D>(storedData: array<D>, apply: (Allele<LeafEffect>, D) -> D) returns (r: array<D>)
      requires storedData.Length >= 1
      requires genome.effect.active.value.combinable && genome.effect.inactive.value.combinable
               ==> storedData.Length >= 2
      modifies storedData
      ensures r == storedData
      ensures storedData[0] == apply(genome.effect.active, old(storedData[0]))
      ensures genome.effect.active.value.combinable && genome.effect.inactive.value.combinable
              ==> storedData[1] == apply(genome.effect.inactive, old(storedData[1]))
      ensures !(genome.effect.active.value.combinable && genome.effect.inactive.value.combinable)
              ==> forall i :: 1 <= i < storedData.Length ==> storedData[i] == old(storedData[i])
      ensures forall i :: 2 <= i < storedData.Length ==> storedData[i] == old(storedData[i])
    {
      var effect := genome.effect.active;
      storedData[0] := apply(effect, storedData[0]);
      if !effect.value.combinable {
        return storedData;
      }
      var secondary := genome.effect.inactive;
      if !secondary.value.combinable {
        return storedData;
      }
      storedData[1] := apply(secondary, storedData[1]);
      return storedData;
    }

    /** Whether the tree can stay on the block below (`hasBlockBelow`), trying
        its plant types in declaration order and recording each in `plantType`
        before asking the block (`sustains`) about it. */
    method CanStay(hasBlockBelow: bool, sustains: PlantType -> bool) returns (ok: bool)
      modifies this`plantType
      ensures !hasBlockBelow ==> !ok && plantType == old(plantType)
      ensures hasBlockBelow ==> (ok <==> exists t :: t in plantTypes && sustains(t))
      ensures ok ==> plantType.Some? && plantType.value in plantTypes && sustains(plantType.value)
      ensures ok ==> forall t :: t in plantTypes && PlantOrdinal(t) < PlantOrdinal(plantType.value) ==> !sustains(t)
      ensures hasBlockBelow && plantTypes == {} ==> !ok && plantType == old(plantType)
      ensures hasBlockBelow && !ok && plantTypes != {} ==>
                plantType.Some? && plantType.value in plantTypes &&
                forall t :: t in plantTypes ==> PlantOrdinal(t) <= PlantOrdinal(plantType.value)
    {
      if !hasBlockBelow {
        return false;
      }
      var i := 0;
      while i < |AllPlantTypes|
        invariant 0 <= i <= |AllPlantTypes|
        invariant forall t :: t in plantTypes && PlantOrdinal(t) < i ==> !sustains(t)
        invariant (forall t :: t in plantTypes ==> PlantOrdinal(t) >= i) ==> plantType == old(plantType)
        invariant (exists t :: t in plantTypes && PlantOrdinal(t) < i) ==>
                    plantType.Some? && plantType.value in plantTypes && PlantOrdinal(plantType.value) < i &&
                    forall t :: t in plantTypes && PlantOrdinal(t) < i ==> PlantOrdinal(t) <= PlantOrdinal(plantType.value)
      {
        var t := AllPlantTypes[i];
        AllPlantTypesOrdinal(i);
        if t in plantTypes {
          plantType := Some(t);
          if sustains(t) {
            return true;
          }
        }
        i := i + 1;
      }
      return false;
    }

    /** One reproduction attempt: the saplings of `Saplings`, each a new
        individual without a mate. */
    method GetSaplings(draw: real, modifier: real, derive: (TreeGenome, TreeGenome) -> TreeGenome)
      returns (prod: seq<Tree>)
      ensures |prod| == |Saplings(genome, mate, draw, modifier, derive)|
      ensures forall i :: 0 <= i < |prod| ==>
                fresh(prod[i]) && prod[i].mate == None &&
                prod[i].genome == Saplings(genome, mate, draw, modifier, derive)[i]
    {
      prod := [];
      var chance := genome.Fertility() * modifier;
      if draw <= chance {
        if mate == None {
          var sapling := new Tree(genome);
          prod := prod + [sapling];
        } else {
          var offspring := new Tree(derive(genome, mate.value));
          prod := prod + [offspring];
        }
      }
    }
  }
}

=== FILE: tree_genomes.dfy ===
/** The tree genome as the tree individual reads it. The genome class itself,
    its NBT codec and the species definitions are not part of this model: a
    genome here is an immutable record holding, for each tree chromosome, an
    active and an inactive allele, each with its unique identifier and the
    value the tree code queries. */
module TreeGenomes {

  /** The slots of a tree's karyotype, in declaration order. */
  datatype TreeChromosome =
    | SPECIES | GROWTH | HEIGHT | FERTILITY | FRUITS | YIELD | PLANT
    | SAPPINESS | TERRITORY | EFFECT | MATURATION | GIRTH | FIREPROOF

  /** The host engine's plant types, in declaration order. */
  datatype PlantType = Plains | Desert | Beach | Cave | Water | Nether | Crop

  /** Every plant type, in the order an enum set is iterated. */
  const AllPlantTypes: seq<PlantType> := [Plains, Desert, Beach, Cave, Water, Nether, Crop]

  datatype FruitFamily = FruitFamily(uid: string)

  /** What a species allele tells the tree code. */
  datatype TreeSpecies = TreeSpecies(plantType: PlantType, suitableFruit: set<FruitFamily>)

  /** What a fruit allele's provider tells the tree code. */
  datatype FruitProvider = FruitProvider(family: FruitFamily, requiresFruitBlocks: bool)

  /** What a leaf-effect allele tells the tree code. */
  datatype LeafEffect = LeafEffect(combinable: bool)

  datatype Allele<V> = Allele(uid: string, value: V)

  datatype Chromosome<V> = Chromosome(active: Allele<V>, inactive: Allele<V>)

  datatype TreeGenome = TreeGenome(
    species: Chromosome<TreeSpecies>,
    growth: Chromosome<string>,
    height: Chromosome<real>,
    fertility: Chromosome<real>,
    fruits: Chromosome<FruitProvider>,
    yieldRate: Chromosome<real>,
    plant: Chromosome<set<PlantType>>,
    sappiness: Chromosome<real>,
    territory: Chromosome<int>,
    effect: Chromosome<LeafEffect>,
    maturation: Chromosome<int>,
    girth: Chromosome<int>,
    fireproof: Chromosome<bool>)
  {
    /** `getPrimary`: the active species. */
    function Primary(): TreeSpecies { species.active.value }

    /** `getFruitProvider`: the active fruit allele's provider. */
    function Provider(): FruitProvider { fruits.active.value }

    /** `getFertility`. */
    function Fertility(): real { fertility.active.value }

    /** `getYield`. */
    function Yield(): real { yieldRate.active.value }

    /** `getPlantTypes`: the plant types of the active plant allele. */
    function PlantTypes(): set<PlantType> { plant.active.value }

    /** `getMaturationTime`. */
    function MaturationTime(): int { maturation.active.value }

    /** Every chromosome holds the same allele twice, as a genome built
        from a species template does. */
    predicate SameAlleles() {
      species.active == species.inactive && growth.active == growth.inactive &&
      height.active == height.inactive && fertility.active == fertility.inactive &&
      fruits.active == fruits.inactive && yieldRate.active == yieldRate.inactive &&
      plant.active == plant.inactive && sappiness.active == sappiness.inactive &&
      territory.active == territory.inactive && effect.active == effect.inactive &&
      maturation.active == maturation.inactive && girth.active == girth.inactive &&
      fireproof.active == fireproof.inactive
    }

    /** The identifiers of the active and the inactive allele at `c`. */
    function Uids(c: TreeChromosome): (string, string) {
      match c
      case SPECIES => (species.active.uid, species.inactive.uid)
      case GROWTH => (growth.active.uid, growth.inactive.uid)
      case HEIGHT => (height.active.uid, height.inactive.uid)
      case FERTILITY => (fertility.active.uid, fertility.inactive.uid)
      case FRUITS => (fruits.active.uid, fruits.inactive.uid)
      case YIELD => (yieldRate.active.uid, yieldRate.inactive.uid)
      case PLANT => (plant.active.uid, plant.inactive.uid)
      case SAPPINESS => (sappiness.active.uid, sappiness.inactive.uid)
      case TERRITORY => (territory.active.uid, territory.inactive.uid)
      case EFFECT => (effect.active.uid, effect.inactive.uid)
      case MATURATION => (maturation.active.uid, maturation.inactive.uid)
      case GIRTH => (girth.active.uid, girth.inactive.uid)
      case FIREPROOF => (fireproof.active.uid, fireproof.inactive.uid)
    }
  }

  function PureBredChromosome<V>(a: Allele<V>): Chromosome<V> {
    Chromosome(a, a)
  }

  /** Stand-in for the Oak definition's genome, the fallback of the tree's NBT
      constructor. The tree definitions are not part of this model; any fixed
      genome plays the same role. */
  const OakGenome: TreeGenome := TreeGenome(
    PureBredChromosome(Allele("forestry.treeOak", TreeSpecies(Plains, {FruitFamily("forestry.pomes")}))),
    PureBredChromosome(Allele("forestry.growthLightlevel", "lightlevel")),
    PureBredChromosome(Allele("forestry.heightSmall", 0.75)),
    PureBredChromosome(Allele("forestry.saplingsLower", 0.05)),
    PureBredChromosome(Allele("forestry.fruitApple", FruitProvider(FruitFamily("forestry.pomes"), false))),
    PureBredChromosome(Allele("forestry.yieldLowest", 0.025)),
    PureBredChromosome(Allele("forestry.plantTypeNone", {})),
    PureBredChromosome(Allele("forestry.sappinessLowest", 0.1)),
    PureBredChromosome(Allele("forestry.territoryDefault", 9)),
    PureBredChromosome(Allele("forestry.leavesNone", LeafEffect(true))),
    PureBredChromosome(Allele("forestry.maturationAverage", 4)),
    PureBredChromosome(Allele("forestry.i1d", 1)),
    PureBredChromosome(Allele("forestry.boolFalse", false)))
}

=== FILE: util.dfy ===
/** Small shared vocabulary: an optional value (Java's nullable reference),
    32-bit integer arithmetic, and English lower-casing of names. */
module Util {

  /** A value that may be absent; `None` stands for Java's `null`. */
  datatype Option<+T> = None | Some(value: T)

  const INT_MIN: int := -0x8000_0000
  const INT_MAX: int := 0x7fff_ffff

  /** A value a Java `int` can hold. */
  predicate IsInt32(x: int) {
    INT_MIN <= x <= INT_MAX
  }

  /** Java's `x + 1` on an `int`: wraps from INT_MAX to INT_MIN. */
  function Inc32(x: int): (r: int)
    requires IsInt32(x)
    ensures IsInt32(r)
    ensures x < INT_MAX ==> r == x + 1
    ensures x == INT_MAX ==> r == INT_MIN
  {
    if x == INT_MAX then INT_MIN else x + 1
  }

  /** Lower-cases the ASCII letters A to Z and leaves every other character as it is. */
  function LowerChar(c: char): (r: char)
    ensures 'A' <= c <= 'Z' ==> 'a' <= r <= 'z'
    ensures !('A' <= c <= 'Z') ==> r == c
  {
    if 'A' <= c <= 'Z' then (c as int - 'A' as int + 'a' as int) as char else c
  }

  /** Lower-casing with English rules, restricted to ASCII: each letter A to Z
      becomes its lower-case letter. Java's English lower-casing also lowers
      letters outside ASCII, and can lengthen a string; this one does not. */
  function Lower(s: string): (r: string)
    ensures |r| == |s|
    ensures forall i :: 0 <= i < |s| ==> r[i] == LowerChar(s[i])
  {
    if s == [] then [] else [LowerChar(s[0])] + Lower(s[1..])
  }

  /** Lower-casing a concatenation lower-cases each part. */
  lemma LowerAppend(a: string, b: string)
    ensures Lower(a + b) == Lower(a) + Lower(b)
  {
  }
}
